=== FILE: README.md ===
# Unicode explorer: viewport and search, in Dafny

A model of the core of a WebAssembly Unicode explorer (src/lib.rs). The
explorer draws one Unicode plane as a 256 × 256 grid of cells on a canvas.
The user pans it by dragging, zooms it with the wheel about the pointer, and
clicks a cell to select its codepoint. A search box answers a hex query
("U+1F600", "0x41") directly. Any other query is a name search over the
whole codespace.

Modules:

- `Wrappers`: the `Option` type.
- `Unicode`: the `u32` range, scalar values, surrogates, the plane size.
- `Hex`: three pieces of Rust's standard library that the core relies on:
  - the `U+{:04X}` label of `get_char_info`;
  - `u32::from_str_radix(_, 16)`;
  - `str::trim_start_matches`.
- `Viewport`: the view state of `UnicodeExplorer` without the canvas
  handles. Each `&mut self` method is a pure function from the old state
  to the new one. The visible cell range of `render` is modelled, as are
  the codepoint of each painted cell and the highlight test.
- `Search`: `search_characters`. It has the hex fast path, and a name scan
  that stops at `limit` matches.

Modelling choices:

- `f64` values are exact reals. `floor` is `.Floor`, `ceil` is written out,
  and the float-to-`i32`/`u32` casts saturate the way Rust's do.
- `zoom` is a subset type [0.1, 10.0], because every writer clamps it.
- `plane` is a subset type `<= 0xFFFF`. `set_plane` admits only `<= 16` and
  `center_on` stores `cp / 0x10000` of a `u32`. This bound is why
  `plane * 0x10000 + row * 256 + col` in `click` and `render` never
  overflows `u32`.
- The Unicode name table (`unicode_names2::name`) and `to_lowercase` are
  function parameters of the search.

Behaviour of the code worth knowing:

- `trim_start_matches` strips every leading copy of "u+" and then every
  leading copy of "0x", not just one prefix. So "u+u+41" is a direct hit.
- The start of the visible range is only clamped below, at 0. For a grid
  panned far left it can exceed 256 (saturating at `u32::MAX`). The range
  is then empty rather than clamped.
- `center_on` accepts any `u32` and stores `cp / 0x10000` as the plane
  unchecked. `CenterOn` states that the stored plane is at most 16 exactly
  when `cp <= 0x10FFFF`.

## Model

| member | source | states |
|---|---|---|
| Viewport.Init | src/lib.rs:37-53 | a new explorer has the canvas size, no pan, zoom 1, plane 0, no drag and no selection |
| Viewport.InitialOriginCell | src/lib.rs:45-52 | on a new explorer, a click in the top-left 20 × 20 pixels selects U+0000 |
| Viewport.Resize | src/lib.rs:56-61 | only the canvas size changes; every click selects what it selected before |
| Viewport.SetPlane | src/lib.rs:63-67 | planes up to 16 are taken and larger ones leave the state unchanged; nothing else changes; the plane stays at most 16 once it is |
| Viewport.Clamp | src/lib.rs:74 | `f64::clamp` returns a point of [lo, hi], and no point of [lo, hi] is nearer the input |
| Viewport.SetZoom | src/lib.rs:73-75 | an in-range zoom is taken as given; otherwise the nearest allowed zoom is taken; only the zoom changes |
| Viewport.ZoomAt | src/lib.rs:81-90 | the new zoom is the allowed zoom nearest to the old one times 0.9 (positive delta) or 1.1 (otherwise); the grid coordinate under the pointer is the same before and after; a positive delta never zooms in and any other delta never zooms out; only zoom and pan change |
| Viewport.AnchorFixed | src/lib.rs:87-89 | rescaling the pan about a point by the applied zoom ratio keeps that point's grid coordinate |
| Viewport.ZoomKeepsCellUnderCursor | src/lib.rs:81-90 | after a wheel step, a click at the pointer selects the same cell, or misses the grid, as before |
| Viewport.StartDrag | src/lib.rs:92-96 | a drag starts and records the pointer; nothing else changes |
| Viewport.Drag | src/lib.rs:98-105 | outside a drag nothing changes; during one the pan moves by the pointer's displacement and the pointer is recorded; nothing else changes |
| Viewport.EndDrag | src/lib.rs:107-109 | afterwards no pointer move changes anything |
| Viewport.DragAlongPans | src/lib.rs:98-105 | during a drag, a sequence of moves pans by the displacement from the last recorded pointer to the final one |
| Viewport.DragGesture | src/lib.rs:92-105 | start_drag at (x0, y0) and moves ending at (xn, yn) pan by exactly (xn - x0, yn - y0), keeping zoom, plane and selection |
| Viewport.DragAlongWhileIdle | src/lib.rs:98-109 | when no drag is active, no sequence of pointer moves changes anything |
| Viewport.AddressOf | src/lib.rs:205-209 | plane, row and column are in range and recombine to the codepoint |
| Viewport.AsI32 | src/lib.rs:113-114 | the saturating `as i32` cast: the result is an `i32`, values in range pass unchanged, and the result is a grid index in [0, 256) iff the input was |
| Viewport.CellCodepoint | src/lib.rs:117 | the codepoint of a cell decomposes back into that cell, and its plane is the cell's plane |
| Viewport.Click | src/lib.rs:111-124 | a codepoint is returned iff the point is on the grid; it is the codepoint of the cell under the point, in the current plane, and a scalar-range value when the plane is at most 16; the selection becomes the result |
| Viewport.ClickHighlightsOneCell | src/lib.rs:173-178 | after a click on the grid, the one cell whose codepoint equals the selection is the clicked cell |
| Viewport.CenterOn | src/lib.rs:205-215 | the centre of the codepoint's cell lands exactly on the canvas centre, so a click there afterwards selects the codepoint; the stored plane is at most 16 iff the codepoint is at most 0x10FFFF; only plane and pan change |
| Viewport.CellCentreHit | src/lib.rs:213-214 | the centre of cell k is at grid coordinate k + 0.5, so it lies in cell k |
| Viewport.Ceil | src/lib.rs:141-142 | `f64::ceil`: the least integer at or above the input |
| Viewport.AsU32 | src/lib.rs:139-142 | the saturating `as u32` cast: values in range pass unchanged, negative values become 0 and values above `u32::MAX` become `u32::MAX` |
| Viewport.VisibleRange | src/lib.rs:139-142 | the painted range ends at most at column and row 256 |
| Viewport.AxisVisible | src/lib.rs:139-142 | on one axis, an index lies in the computed range iff its cell meets the open canvas interval |
| Viewport.VisibleRangeIsOnCanvas | src/lib.rs:139-151 | `render` paints exactly the cells of the plane that meet the canvas |
| Viewport.PaintedCellIsClicked | src/lib.rs:150-154 | clicking the centre of any cell of the plane, painted ones included, selects the codepoint `render` computes for it |
| Hex.DigitValue | src/lib.rs:307 | a digit's value is below 16 |
| Hex.UpperDigit | src/lib.rs:273 | the digit written for d reads back as d and is not a lower-case letter |
| Hex.ToUpperHex | src/lib.rs:273 | `{:X}` is non-empty, all upper-case hex digits, with no leading zero |
| Hex.ValueOfToUpperHex | src/lib.rs:273 | reading `{:X}` of n back as hex gives n |
| Hex.PadZeros | src/lib.rs:273 | the result is padded to the width with '0's in front and ends with the input |
| Hex.ValueOfPadded | src/lib.rs:273 | zero padding keeps the value |
| Hex.FormatCodepoint | src/lib.rs:273 | the label is "U+" followed by at least four hex digits |
| Hex.LowerKeepsValue | src/lib.rs:301-307 | lower-casing keeps hex digits hex digits, with the same value |
| Hex.TrimStartMatches | src/lib.rs:306 | the result is a suffix of the input; it no longer starts with the pattern; an input that does not start with it is unchanged |
| Hex.TrimRemovesCopies | src/lib.rs:306 | what was removed is a whole number of copies of the pattern |
| Hex.ParseU32 | src/lib.rs:307 | a successful parse saw at least one digit; its first character is '+' or a hex digit and every later character is a hex digit |
| Hex.ParseU32Digits | src/lib.rs:307 | on a run of hex digits, a leading '+' changes nothing, the parse succeeds iff the value is below 2^32, and it then returns that value |
| Search.Contains | src/lib.rs:322 | `str::contains`: the empty needle is in every string, and a needle longer than the haystack is in none |
| Search.ContainsIsOccurrence | src/lib.rs:322 | `contains` holds iff the needle occurs at some index |
| Search.HexQuery | src/lib.rs:305-312 | a direct hit is a scalar value, only queries starting with "u+" or "0x" get one, and the hit is what the text left after both trims parses to |
| Search.HexQueryOfTrimmed | src/lib.rs:305-311 | a query starting with "u+" or "0x" whose text after both trims parses to a scalar value is a direct hit on it; with HexQuery this is an if-and-only-if |
| Search.TrimOnce | src/lib.rs:306 | one leading copy of the pattern is stripped and the rest trimmed as before |
| Search.HexQueryOfDigits | src/lib.rs:305-310 | "u+" followed by any text that parses to a scalar value (one or more hex digits, optionally after a '+') is a direct hit on that value |
| Search.HexQueryOfZeroXDigits | src/lib.rs:305-310 | "0x" followed by any text that parses to a scalar value (one or more hex digits, optionally after a '+') is a direct hit on that value |
| Search.NoPrefixInParsed | src/lib.rs:306-307 | text that parses as a `u32` starts with neither "u+" nor "0x", so the trims leave it alone |
| Search.HexQueryOfDigitsMiss | src/lib.rs:305-312 | "u+" followed by text with no further prefix that does not parse, or parses to a non-scalar, is not a direct hit, so the query goes to the name scan |
| Search.HexQueryOfZeroXDigitsMiss | src/lib.rs:305-312 | "0x" followed by text not starting with "0x" that does not parse, or parses to a non-scalar, is not a direct hit |
| Search.HexQueryOverRange | src/lib.rs:305-312 | "u+" followed by hex digits worth 2^32 or more is not a direct hit |
| Search.HexQueryUPlus | src/lib.rs:305-310 | "u+0041" is a direct hit on U+0041 |
| Search.HexQueryPlusSign | src/lib.rs:305-310 | "u++41" is a direct hit on U+0041, because the parse takes a leading '+' |
| Search.HexQueryZeroX | src/lib.rs:305-310 | "0x1f600" is a direct hit on U+1F600 |
| Search.HexQuerySurrogate | src/lib.rs:308 | "u+d800" is not a direct hit, because a surrogate is not a `char` |
| Search.FormatRoundTrip | src/lib.rs:305-310 | the lower-cased label of a scalar value is a direct hit on that value |
| Search.NameMatch | src/lib.rs:320-322 | the scan keeps a codepoint iff it is a scalar value with a name whose lower-cased form has the lower-cased query at some index |
| Search.MatchesBelowExact | src/lib.rs:315-326 | the matches below n are ascending and all below n; they all match, and every match below n is among them |
| Search.MatchesBelowGrows | src/lib.rs:315-326 | scanning further only appends matches |
| Search.ScanStep | src/lib.rs:316-326 | below the limit, one step of the scan appends the codepoint iff it matches |
| Search.ScanStops | src/lib.rs:316-318 | stopping at the limit loses none of the first `limit` matches |
| Search.FirstMatches | src/lib.rs:314-329 | cutting all matches at `limit` gives at most `limit` ascending matches; any match left out is preceded by `limit` kept ones |
| Search.ScanNames | src/lib.rs:314-329 | the loop returns the first `limit` of all name matches in ascending order |
| Search.SearchCharacters | src/lib.rs:300-330 | a hex query naming a scalar value returns just that value, even when the limit is 0; otherwise the first `limit` name matches in ascending order, with no match skipped for a later one |

## Left out

- The canvas, its 2D context and the wasm-bindgen glue are not modelled. The constructor's failure when `get_context("2d")` fails is left out with them, and `Init` takes the canvas size as parameters.
- Viewport.Resize: the canvas `set_width`/`set_height` calls (line 59-60) are drawing side effects and are left out.
- The drawing in `render` is left out: fill colours, font size, glyphs and grid lines. The visible range, the codepoint of each painted cell and the highlight test are modelled.
- `get_category_color` and the category, block and name lookups of `get_char_info` depend on Unicode tables. They are left out, and so is the JSON text `get_char_info` assembles. Only its `U+{:04X}` label is modelled.
- The getters `get_plane`, `get_zoom` and `get_selected` are field reads.
- Floating-point behaviour is not modelled: rounding, NaN and the infinities. In particular, a NaN zoom passed to `set_zoom` is not covered.
- Search.SearchCharacters: the name table and `to_lowercase` are parameters. Their contents are not modelled, so results are stated relative to them.
- Search.FormatRoundTrip: lower-cases with ASCII lower-casing instead of the full Unicode `to_lowercase`. The two agree on the label's characters.
- Search.SearchCharacters returns `seq<nat>`, not `Vec<u32>`. Every element is at most 0x10FFFF.

=== FILE: hex.dfy ===
/** Hexadecimal text as Rust writes and reads it: the `{:04X}` format used
    for codepoint labels, `u32::from_str_radix(_, 16)`, and the
    `str::trim_start_matches` prefix stripping that precedes the parse. */
module Hex {
  import opened Wrappers
  import opened Unicode

  /** `char::to_digit(16)`: decimal digits and the letters a-f in either case. */
  function DigitValue(c: char): (r: Option<nat>)
    ensures r.Some? ==> r.value < 16
  {
    if '0' <= c <= '9' then Some(c as nat - '0' as nat)
    else if 'a' <= c <= 'f' then Some(c as nat - 'a' as nat + 10)
    else if 'A' <= c <= 'F' then Some(c as nat - 'A' as nat + 10)
    else None
  }

  predicate IsHexDigit(c: char) {
    DigitValue(c).Some?
  }

  predicate AllHexDigits(s: string) {
    forall i :: 0 <= i < |s| ==> IsHexDigit(s[i])
  }

  /** The value of a run of hex digits, most significant first, accumulated
      the way `from_str_radix` does it: `v * 16 + d` for each digit. */
  function Value(s: string): nat
    requires AllHexDigits(s)
  {
    if s == [] then 0 else Value(s[..|s| - 1]) * 16 + DigitValue(s[|s| - 1]).value
  }

  /** The digit `{:X}` writes for `d`: upper-case letters. */
  function UpperDigit(d: nat): (c: char)
    requires d < 16
    ensures DigitValue(c) == Some(d)
    ensures !('a' <= c <= 'z')
  {
    if d < 10 then ('0' as nat + d) as char else ('A' as nat + d - 10) as char
  }

  /** `{:X}`: upper-case hex without leading zeros ("0" for zero). */
  function ToUpperHex(n: nat): (s: string)
    ensures 0 < |s|
    ensures AllHexDigits(s)
    ensures forall i :: 0 <= i < |s| ==> !('a' <= s[i] <= 'z')
    ensures 1 < |s| ==> s[0] != '0'
    decreases n
  {
    if n < 16 then [UpperDigit(n)] else ToUpperHex(n / 16) + [UpperDigit(n % 16)]
  }

  /** `n` zero digits. */
  function Zeros(n: nat): (r: string)
    ensures |r| == n && forall i :: 0 <= i < n ==> r[i] == '0'
  {
    seq(n, _ => '0')
  }

  /** The zero padding of `{:0width$X}`: '0's in front up to `width` characters. */
  function PadZeros(s: string, width: nat): (r: string)
    ensures |r| == if |s| < width then width else |s|
    ensures r[|r| - |s|..] == s
    ensures forall i :: 0 <= i < |r| - |s| ==> r[i] == '0'
  {
    if |s| < width then Zeros(width - |s|) + s else s
  }

  /** `format!("U+{:04X}", cp)` (src/lib.rs:273). */
  function FormatCodepoint(cp: u32): (s: string)
    ensures 6 <= |s|
    ensures s[..2] == "U+"
    ensures AllHexDigits(s[2..])
  {
    "U+" + PadZeros(ToUpperHex(cp), 4)
  }

  /** `char::to_lowercase` restricted to ASCII. */
  function LowerChar(c: char): char {
    if 'A' <= c <= 'Z' then (c as nat + 32) as char else c
  }

  /** Lower-cases the ASCII letters of `s` and keeps every other character. */
  function AsciiLower(s: string): (r: string)
    ensures |r| == |s|
  {
    seq(|s|, i requires 0 <= i < |s| => LowerChar(s[i]))
  }

  /** `s.trim_start_matches(pat)`: removes every leading copy of `pat`. */
  function TrimStartMatches(s: string, pat: string): (r: string)
    ensures |r| <= |s| && r == s[|s| - |r|..]
    ensures pat != [] ==> !(pat <= r)
    ensures !(pat <= s) ==> r == s
    decreases |s|
  {
    if pat != [] && pat <= s then TrimStartMatches(s[|pat|..], pat) else s
  }

  /** `pat` written `k` times. */
  function Repeat(pat: string, k: nat): string {
    if k == 0 then [] else pat + Repeat(pat, k - 1)
  }

  /** `u32::from_str_radix(s, 16)`: an optional leading '+', then at least
      one hex digit of either case, and a value that fits in 32 bits. */
  function ParseU32(s: string): (r: Option<u32>)
    ensures r.Some? ==> s != [] && s != "+"
    ensures r.Some? ==> s[0] == '+' || IsHexDigit(s[0])
    ensures r.Some? ==> forall i :: 0 < i < |s| ==> IsHexDigit(s[i])
  {
    var digits := if |s| > 0 && s[0] == '+' then s[1..] else s;
    if digits != [] && AllHexDigits(digits) && Value(digits) < 0x1_0000_0000
    then Some(Value(digits))
    else None
  }

  /** `from_str_radix` on a run of hex digits: a leading '+' changes
      nothing, the run is accepted exactly when its value fits in 32 bits,
      and then the result is that value. */
  lemma ParseU32Digits(d: string)
    requires d != [] && AllHexDigits(d)
    ensures ParseU32("+" + d) == ParseU32(d)
    ensures ParseU32(d).Some? <==> Value(d) < 0x1_0000_0000
    ensures ParseU32(d).Some? ==> ParseU32(d).value == Value(d)
  {
    assert IsHexDigit(d[0]);
    assert ("+" + d)[1..] == d;
  }

  /** How many leading copies of `pat` `trim_start_matches` strips from `s`. */
  function CopiesStripped(s: string, pat: string): nat
    decreases |s|
  {
    if pat != [] && pat <= s then 1 + CopiesStripped(s[|pat|..], pat) else 0
  }

  /** What `trim_start_matches` removed is whole copies of the pattern. */
  lemma {:induction false} TrimRemovesCopies(s: string, pat: string)
    ensures s == Repeat(pat, CopiesStripped(s, pat)) + TrimStartMatches(s, pat)
    decreases |s|
  {
    if pat != [] && pat <= s {
      var rest := s[|pat|..];
      TrimRemovesCopies(rest, pat);
      StripOne(s, pat, rest);
    } else {
      assert [] + s == s;
    }
  }

  /** Stripping one leading copy of `pat` from `s` leaves `rest`. */
  lemma StripOne(s: string, pat: string, rest: string)
    requires pat != [] && pat <= s && rest == s[|pat|..]
    requires rest == Repeat(pat, CopiesStripped(rest, pat)) + TrimStartMatches(rest, pat)
    ensures s == Repeat(pat, CopiesStripped(s, pat)) + TrimStartMatches(s, pat)
  {
    UnfoldStrip(s, pat);
    PrefixSplit(s, pat);
    Assemble(s, pat, rest, CopiesStripped(rest, pat), TrimStartMatches(rest, pat));
  }

  /** `s` is one copy of `pat`, then `k` more, then `r`. */
  lemma Assemble(s: string, pat: string, rest: string, k: nat, r: string)
    requires CopiesStripped(s, pat) == k + 1 && TrimStartMatches(s, pat) == r
    requires s == pat + rest && rest == Repeat(pat, k) + r
    ensures s == Repeat(pat, CopiesStripped(s, pat)) + TrimStartMatches(s, pat)
  {
    assert Repeat(pat, k + 1) == pat + Repeat(pat, k);
    ConcatShift(s, pat, rest, Repeat(pat, k), r);
  }

  /** With `pat` in front, both the trim and the count take one step. */
  lemma UnfoldStrip(s: string, pat: string)
    requires pat != [] && pat <= s
    ensures CopiesStripped(s, pat) == 1 + CopiesStripped(s[|pat|..], pat)
    ensures TrimStartMatches(s, pat) == TrimStartMatches(s[|pat|..], pat)
  {
  }

  lemma PrefixSplit(s: string, pat: string)
    requires pat <= s
    ensures s == pat + s[|pat|..]
  {
  }

  lemma ConcatShift(s: string, a: string, rest: string, b: string, c: string)
    requires s == a + rest && rest == b + c
    ensures s == (a + b) + c
  {
  }

  /** `{:X}` and `from_str_radix(_, 16)` agree on the value of every number. */
  lemma {:induction false} ValueOfToUpperHex(n: nat)
    ensures Value(ToUpperHex(n)) == n
    decreases n
  {
    if n >= 16 {
      var s := ToUpperHex(n / 16);
      var t := s + [UpperDigit(n % 16)];
      ValueOfToUpperHex(n / 16);
      assert t[..|t| - 1] == s;
      assert Value(t) == Value(s) * 16 + n % 16;
    }
  }

  /** A leading '0' does not change the value of a run of hex digits. */
  lemma {:induction false} LeadingZeroValue(s: string)
    requires AllHexDigits(s)
    ensures AllHexDigits(['0'] + s)
    ensures Value(['0'] + s) == Value(s)
    decreases |s|
  {
    var z := ['0'] + s;
    assert IsHexDigit(z[0]);
    assert forall i :: 1 <= i < |z| ==> z[i] == s[i - 1];
    if s != [] {
      var init := s[..|s| - 1];
      LeadingZeroValue(init);
      assert z[..|z| - 1] == ['0'] + init;
    }
  }

  /** Zero padding does not change the value of a run of hex digits. */
  lemma {:induction false} ValueOfZeroPrefixed(n: nat, s: string)
    requires AllHexDigits(s)
    ensures AllHexDigits(Zeros(n) + s)
    ensures Value(Zeros(n) + s) == Value(s)
  {
    if n > 0 {
      ValueOfZeroPrefixed(n - 1, s);
      assert Zeros(n) + s == ['0'] + (Zeros(n - 1) + s);
      LeadingZeroValue(Zeros(n - 1) + s);
    } else {
      assert Zeros(n) + s == s;
    }
  }

  lemma ValueOfPadded(s: string, width: nat)
    requires AllHexDigits(s)
    ensures AllHexDigits(PadZeros(s, width))
    ensures Value(PadZeros(s, width)) == Value(s)
  {
    if |s| < width {
      ValueOfZeroPrefixed(width - |s|, s);
    }
  }

  /** ASCII lower-casing keeps hex digits hex digits, with the same values. */
  lemma {:induction false} LowerKeepsValue(s: string)
    requires AllHexDigits(s)
    ensures AllHexDigits(AsciiLower(s))
    ensures Value(AsciiLower(s)) == Value(s)
    decreases |s|
  {
    var l := AsciiLower(s);
    assert forall i :: 0 <= i < |s| ==> DigitValue(l[i]) == DigitValue(s[i]);
    if s != [] {
      var init := s[..|s| - 1];
      LowerKeepsValue(init);
      assert l[..|l| - 1] == AsciiLower(init);
    }
  }
}

=== FILE: search.dfy ===
/** `search_characters` (src/lib.rs:300-330): a direct hex lookup for queries
    such as "U+1F600" or "0x41", and otherwise an ascending scan of every
    scalar value for names containing the query.
    The Unicode name table (`unicode_names2::name`) and Unicode lower-casing
    (`to_lowercase`) are external; they are parameters here. */
module Search {
  import opened Wrappers
  import opened Unicode
  import opened Hex

  /** `str::contains` with a string needle: the empty needle is in every
      string, and a needle longer than the haystack is in none. */
  predicate Contains(haystack: string, needle: string)
    ensures needle == [] ==> Contains(haystack, needle)
    ensures Contains(haystack, needle) ==> |needle| <= |haystack|
    decreases |haystack|
  {
    needle <= haystack || (|haystack| > 0 && Contains(haystack[1..], needle))
  }

  /** `needle` occurs in `haystack` starting at index `i`. */
  predicate OccursAt(haystack: string, needle: string, i: int) {
    0 <= i <= |haystack| - |needle| && haystack[i..i + |needle|] == needle
  }

  /** `str::contains` means: the needle occurs at some position. */
  lemma ContainsIsOccurrence(haystack: string, needle: string)
    ensures Contains(haystack, needle) <==> exists i :: OccursAt(haystack, needle, i)
  {
    if Contains(haystack, needle) {
      ContainsHasOccurrence(haystack, needle);
    }
    if exists i :: OccursAt(haystack, needle, i) {
      var i :| OccursAt(haystack, needle, i);
      OccurrenceIsContained(haystack, needle, i);
    }
  }

  lemma {:induction false} ContainsHasOccurrence(haystack: string, needle: string)
    requires Contains(haystack, needle)
    ensures exists i :: OccursAt(haystack, needle, i)
    decreases |haystack|
  {
    if needle <= haystack {
      assert OccursAt(haystack, needle, 0);
    } else {
      var tail := haystack[1..];
      ContainsHasOccurrence(tail, needle);
      var i :| OccursAt(tail, needle, i);
      assert haystack[i + 1..i + 1 + |needle|] == tail[i..i + |needle|];
      assert OccursAt(haystack, needle, i + 1);
    }
  }

  lemma {:induction false} OccurrenceIsContained(haystack: string, needle: string, i: int)
    requires OccursAt(haystack, needle, i)
    ensures Contains(haystack, needle)
    decreases i
  {
    if i == 0 {
      assert needle <= haystack;
    } else {
      var tail := haystack[1..];
      assert tail[i - 1..i - 1 + |needle|] == haystack[i..i + |needle|];
      OccurrenceIsContained(tail, needle, i - 1);
    }
  }

  /** The direct-address path: a lower-cased query starting with "u+" or
      "0x" names a codepoint when what follows the stripped prefixes parses
      as a `u32` that is a scalar value. */
  function HexQuery(q: string): (r: Option<u32>)
    ensures r.Some? ==> IsScalar(r.value)
    ensures r.Some? ==> "u+" <= q || "0x" <= q
    ensures r.Some? ==> ParseU32(TrimStartMatches(TrimStartMatches(q, "u+"), "0x")) == r
  {
    if "u+" <= q || "0x" <= q then
      var digits := TrimStartMatches(TrimStartMatches(q, "u+"), "0x");
      match ParseU32(digits)
      case Some(cp) => if IsScalar(cp) then Some(cp) else None
      case None => None
    else None
  }

  /** Whether the scan keeps `cp`: the `char::from_u32`, name lookup and
      `contains` tests of the loop body. `cp` is kept iff it is a scalar
      value with a name whose lower-cased form has `q` at some index. */
  predicate NameMatch(cp: nat, q: string, lower: string -> string, name: nat -> Option<string>)
    ensures NameMatch(cp, q, lower, name) <==>
              && IsScalar(cp) && name(cp).Some?
              && exists i :: OccursAt(lower(name(cp).value), q, i)
  {
    if IsScalar(cp) && name(cp).Some? then
      var n := lower(name(cp).value);
      ContainsIsOccurrence(n, q);
      Contains(n, q)
    else false
  }

  /** Every match below `n`, in ascending order. */
  function MatchesBelow(n: nat, q: string, lower: string -> string, name: nat -> Option<string>): seq<nat>
  {
    if n == 0 then []
    else MatchesBelow(n - 1, q, lower, name) + (if NameMatch(n - 1, q, lower, name) then [n - 1] else [])
  }

  /** The first `k` elements of `s`, or all of them if there are fewer. */
  function Take(s: seq<nat>, k: nat): (r: seq<nat>)
    ensures r <= s
    ensures |r| == if |s| < k then |s| else k
  {
    if |s| <= k then s else s[..k]
  }

  predicate StrictlyAscending(s: seq<nat>) {
    forall i, j :: 0 <= i < j < |s| ==> s[i] < s[j]
  }

  /** `MatchesBelow(n)` is exactly the ascending list of matches below `n`. */
  lemma {:induction false} MatchesBelowExact(n: nat, q: string, lower: string -> string, name: nat -> Option<string>)
    ensures var m := MatchesBelow(n, q, lower, name);
            && StrictlyAscending(m)
            && (forall i :: 0 <= i < |m| ==> m[i] < n && NameMatch(m[i], q, lower, name))
            && (forall c :: 0 <= c < n && NameMatch(c, q, lower, name) ==> c in m)
  {
    if n > 0 {
      MatchesBelowExact(n - 1, q, lower, name);
      var prev := MatchesBelow(n - 1, q, lower, name);
      if NameMatch(n - 1, q, lower, name) {
        AppendLarger(prev, n - 1);
      } else {
        assert MatchesBelow(n, q, lower, name) == prev + [];
      }
    }
  }

  /** Appending a value above every element keeps a list ascending, and
      what was in it stays in it. */
  lemma AppendLarger(prev: seq<nat>, c: nat)
    requires StrictlyAscending(prev)
    requires forall i :: 0 <= i < |prev| ==> prev[i] < c
    ensures StrictlyAscending(prev + [c])
    ensures forall x :: x in prev ==> x in prev + [c]
    ensures c in prev + [c]
  {
    var m := prev + [c];
    assert forall i :: 0 <= i < |prev| ==> m[i] == prev[i];
    assert m[|prev|] == c;
  }

  /** Scanning further only appends to the matches found so far. */
  lemma {:induction false} MatchesBelowGrows(a: nat, b: nat, q: string, lower: string -> string, name: nat -> Option<string>)
    requires a <= b
    ensures MatchesBelow(a, q, lower, name) <= MatchesBelow(b, q, lower, name)
    decreases b - a
  {
    if a < b {
      MatchesBelowGrows(a, b - 1, q, lower, name);
    }
  }

  /** An element of an ascending list that the first `k` elements miss
      exceeds all of them, and there are `k` of them. */
  lemma TakeMissesOnlyLater(m: seq<nat>, k: nat, c: nat)
    requires StrictlyAscending(m) && c in m && c !in Take(m, k)
    ensures |Take(m, k)| == k
    ensures forall i :: 0 <= i < k ==> Take(m, k)[i] < c
  {
    var j :| 0 <= j < |m| && m[j] == c;
    assert j >= k;
  }

  /** One step of the scan: below the limit, the kept prefix is all the
      matches so far, and visiting `cp` appends it exactly when it matches. */
  lemma ScanStep(cp: nat, r: seq<nat>, limit: nat, q: string, lower: string -> string, name: nat -> Option<string>)
    requires r == Take(MatchesBelow(cp, q, lower, name), limit) && |r| < limit
    ensures Take(MatchesBelow(cp + 1, q, lower, name), limit)
         == r + (if NameMatch(cp, q, lower, name) then [cp] else [])
  {
  }

  /** Stopping early at the limit loses nothing: the first `limit` matches
      are already found. */
  lemma ScanStops(cp: nat, r: seq<nat>, limit: nat, q: string, lower: string -> string, name: nat -> Option<string>)
    requires cp <= SCAN_END
    requires r == Take(MatchesBelow(cp, q, lower, name), limit)
    requires cp == SCAN_END || |r| >= limit
    ensures r == Take(MatchesBelow(SCAN_END, q, lower, name), limit)
  {
    MatchesBelowGrows(cp, SCAN_END, q, lower, name);
  }

  /** `r` is the first `limit` name matches: bounded by `limit`, ascending,
      every element a match, and no match skipped in favour of a later one. */
  predicate FirstMatchesOf(r: seq<nat>, limit: nat, q: string, lower: string -> string, name: nat -> Option<string>) {
    && |r| <= limit
    && StrictlyAscending(r)
    && (forall i :: 0 <= i < |r| ==> r[i] <= MAX_SCALAR && NameMatch(r[i], q, lower, name))
    && (forall c :: 0 <= c <= MAX_SCALAR && NameMatch(c, q, lower, name) && c !in r ==>
          |r| == limit && forall i :: 0 <= i < |r| ==> r[i] < c)
  }

  /** Cutting the ascending list of all matches at `limit` gives the first
      `limit` matches. */
  lemma FirstMatches(limit: nat, q: string, lower: string -> string, name: nat -> Option<string>)
    ensures FirstMatchesOf(Take(MatchesBelow(SCAN_END, q, lower, name), limit), limit, q, lower, name)
  {
    var all := MatchesBelow(SCAN_END, q, lower, name);
    var r := Take(all, limit);
    MatchesBelowExact(SCAN_END, q, lower, name);
    assert forall i :: 0 <= i < |r| ==> r[i] == all[i];
    forall c | 0 <= c <= MAX_SCALAR && NameMatch(c, q, lower, name) && c !in r
      ensures |r| == limit && forall i :: 0 <= i < |r| ==> r[i] < c
    {
      TakeMissesOnlyLater(all, limit, c);
    }
  }

  /** `search_characters(query, limit)` over the name table `name` and the
      lower-casing `lower`. The fast path answers a hex query with one
      codepoint, even when `limit` is 0; otherwise the result is the first
      `limit` name matches of the lower-cased query, in ascending order. */
  method SearchCharacters(query: string, limit: u32, lower: string -> string, name: nat -> Option<string>)
    returns (r: seq<nat>)
    ensures HexQuery(lower(query)).Some? ==> r == [HexQuery(lower(query)).value]
    ensures HexQuery(lower(query)).None? ==>
              r == Take(MatchesBelow(SCAN_END, lower(query), lower, name), limit)
    ensures HexQuery(lower(query)).None? ==> FirstMatchesOf(r, limit, lower(query), lower, name)
  {
    var q := lower(query);
    var hex := HexQuery(q);
    if hex.Some? {
      return [hex.value];
    }
    r := ScanNames(q, limit, lower, name);
    FirstMatches(limit, q, lower, name);
  }

  /** The name scan of `search_characters`: visits codepoints from 0 up to
      `MAX_SCALAR`, keeps the matching ones, and stops once `limit` are kept. */
  method ScanNames(q: string, limit: nat, lower: string -> string, name: nat -> Option<string>)
    returns (r: seq<nat>)
    ensures r == Take(MatchesBelow(SCAN_END, q, lower, name), limit)
  {
    r := [];
    var cp: nat := 0;
    while cp <= MAX_SCALAR
      invariant cp <= SCAN_END
      invariant r == Take(MatchesBelow(cp, q, lower, name), limit)
    {
      if |r| >= limit {
        break;
      }
      ScanStep(cp, r, limit, q, lower, name);
      if IsScalar(cp) {
        var n := name(cp);
        if n.Some? && Contains(lower(n.value), q) {
          r := r + [cp];
        }
      }
      cp := cp + 1;
    }
    ScanStops(cp, r, limit, q, lower, name);
  }

  /** The label `get_char_info` prints for a scalar value, once lower-cased,
      is a hex query for that same value. */
  lemma FormatRoundTrip(cp: u32)
    requires IsScalar(cp)
    ensures HexQuery(AsciiLower(FormatCodepoint(cp))) == Some(cp)
  {
    var lp := AsciiLower(PadZeros(ToUpperHex(cp), 4));
    LowerLabel(cp);
    ParseLowerPadded(cp);
    HexQueryOfDigits(lp, cp);
  }

  /** Lower-casing "U+" and the digits after it. */
  lemma LowerLabel(cp: u32)
    ensures AsciiLower(FormatCodepoint(cp)) == "u+" + AsciiLower(PadZeros(ToUpperHex(cp), 4))
  {
    AsciiLowerConcat("U+", PadZeros(ToUpperHex(cp), 4));
    assert AsciiLower("U+") == "u+";
  }

  /** The lower-cased, zero-padded digits of `cp` parse back to `cp`. */
  lemma ParseLowerPadded(cp: u32)
    ensures var lp := AsciiLower(PadZeros(ToUpperHex(cp), 4));
            4 <= |lp| && AllHexDigits(lp) && ParseU32(lp) == Some(cp)
  {
    var hex := ToUpperHex(cp);
    var p := PadZeros(hex, 4);
    ValueOfToUpperHex(cp);
    ValueOfPadded(hex, 4);
    LowerKeepsValue(p);
    var lp := AsciiLower(p);
    assert Value(lp) == cp;
    ParseU32Digits(lp);
  }

  /** "u+" followed by any text that parses to a scalar value (one or more
      hex digits, optionally after a '+') is a direct hit on that value. */
  lemma HexQueryOfDigits(digits: string, cp: u32)
    requires ParseU32(digits) == Some(cp) && IsScalar(cp)
    ensures HexQuery("u+" + digits) == Some(cp)
  {
    var q := "u+" + digits;
    assert "u+" <= q;
    NoPrefixInParsed(digits);
    TrimOnce("u+", digits);
    var once := TrimStartMatches(q, "u+");
    assert once == digits;
    var twice := TrimStartMatches(once, "0x");
    assert twice == digits;
    HexQueryOfTrimmed(q, cp);
  }

  /** Text that parses as a `u32` starts with neither "u+" nor "0x", so the
      trims leave it alone. */
  lemma NoPrefixInParsed(digits: string)
    requires ParseU32(digits).Some?
    ensures !("u+" <= digits) && !("0x" <= digits)
  {
    assert digits[0] == '+' || IsHexDigit(digits[0]);
    if |digits| >= 2 {
      assert IsHexDigit(digits[1]);
    }
  }

  /** "u+" followed by text that has no further prefix and does not parse
      to a scalar value is not a direct hit: the query goes on to the name
      scan. */
  lemma HexQueryOfDigitsMiss(digits: string)
    requires !("u+" <= digits) && !("0x" <= digits)
    requires ParseU32(digits).None? || !IsScalar(ParseU32(digits).value)
    ensures HexQuery("u+" + digits) == None
  {
    TrimOnce("u+", digits);
    assert TrimStartMatches("u+" + digits, "u+") == digits;
    assert TrimStartMatches(digits, "0x") == digits;
  }

  /** The "0x" twin of `HexQueryOfDigitsMiss`. */
  lemma HexQueryOfZeroXDigitsMiss(digits: string)
    requires !("0x" <= digits)
    requires ParseU32(digits).None? || !IsScalar(ParseU32(digits).value)
    ensures HexQuery("0x" + digits) == None
  {
    var q := "0x" + digits;
    assert q[0] == '0';
    assert TrimStartMatches(q, "u+") == q;
    TrimOnce("0x", digits);
    assert TrimStartMatches(q, "0x") == digits;
  }

  /** A hex number of 2^32 or more after "u+" overflows `u32`, so the query
      falls through to the name scan. */
  lemma HexQueryOverRange(d: string)
    requires d != [] && AllHexDigits(d) && Value(d) >= 0x1_0000_0000
    ensures HexQuery("u+" + d) == None
  {
    ParseU32Digits(d);
    assert ParseU32(d).None?;
    assert IsHexDigit(d[0]) && !("u+" <= d);
    if |d| >= 2 {
      assert IsHexDigit(d[1]);
    }
    assert !("0x" <= d);
    HexQueryOfDigitsMiss(d);
  }

  /** Lower-casing works character by character. */
  lemma AsciiLowerConcat(a: string, b: string)
    ensures AsciiLower(a + b) == AsciiLower(a) + AsciiLower(b)
  {
  }

  /** One leading copy of the pattern is stripped, then the rest as before. */
  lemma TrimOnce(pat: string, rest: string)
    requires pat != []
    ensures TrimStartMatches(pat + rest, pat) == TrimStartMatches(rest, pat)
  {
    assert (pat + rest)[|pat|..] == rest;
  }

  /** "U+0041" typed in the search box finds U+0041 directly. */
  lemma HexQueryUPlus()
    ensures HexQuery("u+0041") == Some(0x41)
  {
    assert "u+0041" == "u+" + "0041";
    ValueOf0041();
    ParseU32Digits("0041");
    HexQueryOfDigits("0041", 0x41);
  }

  lemma ValueOf0041()
    ensures AllHexDigits("0041") && Value("0041") == 0x41
  {
    assert "0041"[..3] == "004";
    assert "004"[..2] == "00";
    assert "00"[..1] == "0";
    assert "0"[..0] == "";
    assert Value("0") == 0;
    assert Value("00") == 0;
    assert Value("004") == 4;
  }

  /** `from_str_radix` takes a leading '+', so "u++41" is a direct hit on
      U+0041 too. */
  lemma HexQueryPlusSign()
    ensures HexQuery("u++41") == Some(0x41)
  {
    assert "u++41" == "u+" + ("+" + "41");
    ValueOf41();
    ParseU32Digits("41");
    HexQueryOfDigits("+" + "41", 0x41);
  }

  lemma ValueOf41()
    ensures AllHexDigits("41") && Value("41") == 0x41
  {
    assert "41"[..1] == "4";
    assert "4"[..0] == "";
    assert Value("4") == 4;
  }

  /** "0x1F600" typed in the search box finds U+1F600 directly. */
  lemma HexQueryZeroX()
    ensures HexQuery("0x1f600") == Some(0x1F600)
  {
    assert "0x1f600" == "0x" + "1f600";
    ValueOf1F600();
    ParseU32Digits("1f600");
    HexQueryOfZeroXDigits("1f600", 0x1F600);
  }

  /** "0x" followed by any text that parses to a scalar value (one or more
      hex digits, optionally after a '+') is a direct hit on that value. */
  lemma HexQueryOfZeroXDigits(digits: string, cp: u32)
    requires ParseU32(digits) == Some(cp) && IsScalar(cp)
    ensures HexQuery("0x" + digits) == Some(cp)
  {
    var q := "0x" + digits;
    assert q[0] == '0' && "0x" <= q;
    var once := TrimStartMatches(q, "u+");
    assert once == q;
    TrimOnce("0x", digits);
    NoPrefixInParsed(digits);
    var twice := TrimStartMatches(once, "0x");
    assert twice == digits;
    HexQueryOfTrimmed(q, cp);
  }

  /** A prefixed query whose trimmed text parses to a scalar value is a
      direct hit on it. */
  lemma HexQueryOfTrimmed(q: string, cp: u32)
    requires "u+" <= q || "0x" <= q
    requires ParseU32(TrimStartMatches(TrimStartMatches(q, "u+"), "0x")) == Some(cp)
    requires IsScalar(cp)
    ensures HexQuery(q) == Some(cp)
  {
  }

  lemma ValueOf1F600()
    ensures AllHexDigits("1f600") && Value("1f600") == 0x1F600
  {
    assert "1f600"[..4] == "1f60";
    assert "1f60"[..3] == "1f6";
    assert "1f6"[..2] == "1f";
    assert "1f"[..1] == "1";
    assert "1"[..0] == "";
    assert Value("1") == 1;
    assert Value("1f") == 0x1F;
    assert Value("1f6") == 0x1F6;
    assert Value("1f60") == 0x1F60;
  }

  /** A surrogate is not a character, so the direct path declines it. */
  lemma HexQuerySurrogate()
    ensures HexQuery("u+d800") == None
  {
    assert "u+d800" == "u+" + "d800";
    ValueOfD800();
    ParseU32Digits("d800");
    TrimOnce("u+", "d800");
    assert "d800"[0] == 'd';
    assert TrimStartMatches("d800", "0x") == "d800";
  }

  lemma ValueOfD800()
    ensures AllHexDigits("d800") && Value("d800") == 0xD800
  {
    assert "d800"[..3] == "d80";
    assert "d80"[..2] == "d8";
    assert "d8"[..1] == "d";
    assert "d"[..0] == "";
    assert Value("d") == 0xD;
    assert Value("d8") == 0xD8;
    assert Value("d80") == 0xD80;
  }
}

=== FILE: unicode.dfy ===
/** The integer types and the codepoint space the explorer works over. */
module Unicode {

  /** Rust's `u32`: every codepoint, plane and limit in the source has this type. */
  type u32 = x: int | 0 <= x < 0x1_0000_0000

  /** The largest Unicode scalar value. */
  const MAX_SCALAR: nat := 0x10FFFF

  /** One past the last codepoint the name scan visits (`0..=0x10FFFF`). */
  const SCAN_END: nat := MAX_SCALAR + 1

  /** Codepoints per plane: one 256 x 256 page of the 16-bit space. */
  const PLANE_SIZE: nat := 0x10000

  /** A surrogate code unit, which `char` cannot hold. */
  predicate IsSurrogate(cp: int) {
    0xD800 <= cp <= 0xDFFF
  }

  /** `char::from_u32(cp).is_some()`: cp is a Unicode scalar value. */
  predicate IsScalar(cp: int) {
    0 <= cp <= MAX_SCALAR && !IsSurrogate(cp)
  }
}

=== FILE: viewport.dfy ===
/** The view and interaction state of `UnicodeExplorer` (src/lib.rs) without
    its canvas handles: pan, zoom, plane, drag tracking and selection, with
    each `&mut self` method written as a pure transition function.
    `f64` quantities are exact reals. */
module Viewport {
  import opened Wrappers
  import opened Unicode

  /** Cells per row and per column of one plane. */
  const GRID_SIZE: nat := 256

  /** Edge of a cell in pixels at zoom 1.0. */
  const CELL_SIZE: real := 20.0

  /** Every writer of `zoom` clamps it into [0.1, 10.0]. */
  type Zoom = z: real | 0.1 <= z <= 10.0 witness 1.0

  /** The planes the explorer can reach: `set_plane` admits at most 16 and
      `center_on` derives `cp / 0x10000` from a `u32`, so `plane * 0x10000`
      never leaves `u32`. */
  type Plane = p: nat | p <= 0xFFFF

  datatype Explorer = Explorer(
    width: real,
    height: real,
    offsetX: real,
    offsetY: real,
    zoom: Zoom,
    plane: Plane,
    dragging: bool,
    lastMouseX: real,
    lastMouseY: real,
    selected: Option<u32>)
  {
    /** Edge of a cell in pixels at the current zoom. */
    function CellSize(): (s: real)
      ensures 2.0 <= s <= 200.0
    {
      CELL_SIZE * zoom
    }
  }

  /** A cell of the grid: which plane, which row and column inside it. */
  datatype Address = Address(plane: nat, row: nat, col: nat)

  predicate ValidAddress(a: Address) {
    a.plane <= 0xFFFF && a.row < GRID_SIZE && a.col < GRID_SIZE
  }

  /** The first visible cell and one past the last, in each direction. */
  datatype CellRange = CellRange(startCol: u32, startRow: u32, endCol: u32, endRow: u32)

  function Dist(a: real, b: real): real {
    if a < b then b - a else a - b
  }

  /** `f64::clamp(lo, hi)`: the point of [lo, hi] nearest to `v`. */
  function Clamp(v: real, lo: real, hi: real): (r: real)
    requires lo <= hi
    ensures lo <= r <= hi
    ensures forall w :: lo <= w <= hi ==> Dist(r, v) <= Dist(w, v)
  {
    if v < lo then lo else if v > hi then hi else v
  }

  /** `f64::ceil`. */
  function Ceil(v: real): (r: int)
    ensures v <= r as real < v + 1.0
  {
    -((-v).Floor)
  }

  /** A float-to-`i32` cast of an integral value: Rust saturates, so values
      in range pass unchanged and the saturation never moves a value into
      or out of the grid's index range. */
  function AsI32(v: int): (r: int)
    ensures -0x8000_0000 <= r <= 0x7FFF_FFFF
    ensures -0x8000_0000 <= v <= 0x7FFF_FFFF ==> r == v
    ensures 0 <= r < GRID_SIZE <==> 0 <= v < GRID_SIZE
  {
    if v < -0x8000_0000 then -0x8000_0000 else if v > 0x7FFF_FFFF then 0x7FFF_FFFF else v
  }

  /** A float-to-`u32` cast of an integral value: Rust saturates, so values
      in range pass unchanged and the others go to the nearer bound. */
  function AsU32(v: int): (r: u32)
    ensures 0 <= v <= 0xFFFF_FFFF ==> r == v
    ensures v < 0 ==> r == 0
    ensures 0xFFFF_FFFF < v ==> r == 0xFFFF_FFFF
  {
    if v < 0 then 0 else if v > 0xFFFF_FFFF then 0xFFFF_FFFF else v
  }

  function Max(a: int, b: int): int {
    if a < b then b else a
  }

  function Min(a: int, b: int): int {
    if a < b then a else b
  }

  /** The decomposition at the top of `center_on`: plane, then row and
      column inside the plane. */
  function AddressOf(cp: u32): (a: Address)
    ensures ValidAddress(a)
    ensures a.plane * PLANE_SIZE + a.row * GRID_SIZE + a.col == cp
  {
    var local := cp % PLANE_SIZE;
    Address(cp / PLANE_SIZE, local / GRID_SIZE, local % GRID_SIZE)
  }

  /** The codepoint of a cell, as `click` and `render` compute it. */
  function CellCodepoint(a: Address): (cp: u32)
    requires ValidAddress(a)
    ensures AddressOf(cp) == a
    ensures cp / PLANE_SIZE == a.plane
  {
    var cp := a.plane * PLANE_SIZE + a.row * GRID_SIZE + a.col;
    DivModUnique(cp, a.plane, a.row * GRID_SIZE + a.col, PLANE_SIZE);
    DivModUnique(a.row * GRID_SIZE + a.col, a.row, a.col, GRID_SIZE);
    cp
  }

  /** Division with remainder has one answer. */
  lemma DivModUnique(n: int, q: int, r: int, d: int)
    requires 0 < d && 0 <= r < d && n == q * d + r
    ensures n / d == q && n % d == r
  {
    var q', r' := n / d, n % d;
    assert n == q' * d + r';
    if q' < q {
      assert (q - q') * d == r' - r;
      MulAtLeast(q - q', d);
    } else if q' > q {
      assert (q' - q) * d == r - r';
      MulAtLeast(q' - q, d);
    }
  }

  lemma MulAtLeast(a: int, d: int)
    requires a >= 1 && d > 0
    ensures a * d >= d
  {
    assert a * d == d + (a - 1) * d;
  }

  /** Multiplying by a positive number keeps strict order. */
  lemma ScaleLess(a: real, b: real, c: real)
    requires c > 0.0
    ensures a < b <==> a * c < b * c
  {
    if a < b {
      assert (b - a) * c > 0.0;
    } else {
      assert (a - b) * c >= 0.0;
    }
  }

  /** Where screen coordinate `p` falls along one grid axis, in cells, for
      a grid whose origin is at screen coordinate `offset`. */
  function GridCoordinate(offset: real, zoom: Zoom, p: real): real {
    (p - offset) / (CELL_SIZE * zoom)
  }

  /** The column under screen x, before any cast. */
  function ColumnAt(e: Explorer, x: real): int {
    GridCoordinate(e.offsetX, e.zoom, x).Floor
  }

  /** The row under screen y, before any cast. */
  function RowAt(e: Explorer, y: real): int {
    GridCoordinate(e.offsetY, e.zoom, y).Floor
  }

  /** The cell of `e`'s plane under screen point (x, y), if any. */
  predicate OnGrid(e: Explorer, x: real, y: real) {
    0 <= ColumnAt(e, x) < GRID_SIZE && 0 <= RowAt(e, y) < GRID_SIZE
  }

  /** `UnicodeExplorer::new` once the canvas gave its size. */
  function Init(width: real, height: real): (e: Explorer)
    ensures e.width == width && e.height == height
    ensures e.offsetX == 0.0 && e.offsetY == 0.0 && e.zoom == 1.0 && e.plane == 0
    ensures !e.dragging && e.selected == None
  {
    Explorer(width, height, 0.0, 0.0, 1.0, 0, false, 0.0, 0.0, None)
  }

  /** `resize`: records new canvas dimensions; the grid does not move. */
  function Resize(e: Explorer, width: real, height: real): (r: Explorer)
    ensures r.width == width && r.height == height
    ensures forall x, y :: Click(r, x, y).1 == Click(e, x, y).1
    ensures r.(width := e.width, height := e.height) == e
  {
    e.(width := width, height := height)
  }

  /** `set_plane`: planes above 16 are ignored. */
  function SetPlane(e: Explorer, p: u32): (r: Explorer)
    ensures p <= 16 ==> r.plane == p
    ensures p > 16 ==> r == e
    ensures r.(plane := e.plane) == e
    ensures e.plane <= 16 ==> r.plane <= 16
  {
    if p <= 16 then e.(plane := p) else e
  }

  /** `set_zoom`: the allowed zoom nearest to the one asked for. */
  function SetZoom(e: Explorer, z: real): (r: Explorer)
    ensures 0.1 <= z <= 10.0 ==> r.zoom == z
    ensures forall w :: 0.1 <= w <= 10.0 ==> Dist(r.zoom, z) <= Dist(w, z)
    ensures r.(zoom := e.zoom) == e
  {
    e.(zoom := Clamp(z, 0.1, 10.0))
  }

  /** `zoom_at`: one wheel step (positive delta zooms out), anchored so that
      the grid point under (x, y) stays under it, using the zoom ratio
      actually applied after clamping. */
  function ZoomAt(e: Explorer, x: real, y: real, delta: real): (r: Explorer)
    ensures GridCoordinate(r.offsetX, r.zoom, x) == GridCoordinate(e.offsetX, e.zoom, x)
    ensures GridCoordinate(r.offsetY, r.zoom, y) == GridCoordinate(e.offsetY, e.zoom, y)
    ensures var nominal := e.zoom * (if delta > 0.0 then 0.9 else 1.1);
            forall w :: 0.1 <= w <= 10.0 ==> Dist(r.zoom, nominal) <= Dist(w, nominal)
    ensures delta > 0.0 ==> r.zoom <= e.zoom
    ensures delta <= 0.0 ==> r.zoom >= e.zoom
    ensures r.(zoom := e.zoom, offsetX := e.offsetX, offsetY := e.offsetY) == e
  {
    var oldZoom := e.zoom;
    var factor := if delta > 0.0 then 0.9 else 1.1;
    var newZoom := Clamp(oldZoom * factor, 0.1, 10.0);
    var scale := newZoom / oldZoom;
    var r := e.(zoom := newZoom,
                offsetX := x - (x - e.offsetX) * scale,
                offsetY := y - (y - e.offsetY) * scale);
    AnchorFixed(x, e.offsetX, r.offsetX, oldZoom, newZoom);
    AnchorFixed(y, e.offsetY, r.offsetY, oldZoom, newZoom);
    r
  }

  /** Rescaling about an anchor keeps the anchor's grid coordinate. */
  lemma AnchorFixed(x: real, offset: real, newOffset: real, oldZoom: Zoom, newZoom: Zoom)
    requires newOffset == x - (x - offset) * (newZoom / oldZoom)
    ensures GridCoordinate(newOffset, newZoom, x) == GridCoordinate(offset, oldZoom, x)
  {
    var d := x - offset;
    var s := newZoom / oldZoom;
    assert x - newOffset == d * s;
    assert s * oldZoom == newZoom;
    assert d * s * (CELL_SIZE * oldZoom) == d * (CELL_SIZE * newZoom);
  }

  /** `start_drag`. */
  function StartDrag(e: Explorer, x: real, y: real): (r: Explorer)
    ensures r.dragging && r.lastMouseX == x && r.lastMouseY == y
    ensures r.(dragging := e.dragging, lastMouseX := e.lastMouseX, lastMouseY := e.lastMouseY) == e
  {
    e.(dragging := true, lastMouseX := x, lastMouseY := y)
  }

  /** `drag`: while a drag is active, pans by the pointer's movement. */
  function Drag(e: Explorer, x: real, y: real): (r: Explorer)
    ensures !e.dragging ==> r == e
    ensures e.dragging ==> (&& r.offsetX - e.offsetX == x - e.lastMouseX
                            && r.offsetY - e.offsetY == y - e.lastMouseY
                            && r.lastMouseX == x && r.lastMouseY == y)
    ensures r.(offsetX := e.offsetX, offsetY := e.offsetY,
               lastMouseX := e.lastMouseX, lastMouseY := e.lastMouseY) == e
  {
    if e.dragging then
      e.(offsetX := e.offsetX + (x - e.lastMouseX),
         offsetY := e.offsetY + (y - e.lastMouseY),
         lastMouseX := x, lastMouseY := y)
    else e
  }

  /** `end_drag`: afterwards pointer moves no longer pan. */
  function EndDrag(e: Explorer): (r: Explorer)
    ensures !r.dragging
    ensures r.(dragging := e.dragging) == e
    ensures forall x, y :: Drag(r, x, y) == r
  {
    e.(dragging := false)
  }

  /** `click`: selects the codepoint of the cell under (x, y), or clears the
      selection when (x, y) is off the grid; returns the new selection. */
  function Click(e: Explorer, x: real, y: real): (r: (Explorer, Option<u32>))
    ensures r.1.Some? <==> OnGrid(e, x, y)
    ensures r.1.Some? ==> AddressOf(r.1.value) == Address(e.plane, RowAt(e, y), ColumnAt(e, x))
    ensures r.1.Some? ==> r.1.value / PLANE_SIZE == e.plane
    ensures r.1.Some? && e.plane <= 16 ==> r.1.value <= MAX_SCALAR
    ensures r.0 == e.(selected := r.1)
  {
    var gridX := AsI32(ColumnAt(e, x));
    var gridY := AsI32(RowAt(e, y));
    if 0 <= gridX < GRID_SIZE && 0 <= gridY < GRID_SIZE then
      var cp := CellCodepoint(Address(e.plane, gridY, gridX));
      (e.(selected := Some(cp)), Some(cp))
    else
      (e.(selected := None), None)
  }

  /** `center_on`: moves to the plane of `cp` and pans so that the centre of
      its cell sits at the centre of the canvas; zoom and selection stay. */
  function CenterOn(e: Explorer, cp: u32): (r: Explorer)
    ensures GridCoordinate(r.offsetX, r.zoom, e.width / 2.0) == AddressOf(cp).col as real + 0.5
    ensures GridCoordinate(r.offsetY, r.zoom, e.height / 2.0) == AddressOf(cp).row as real + 0.5
    ensures Click(r, e.width / 2.0, e.height / 2.0).1 == Some(cp)
    ensures r.plane <= 16 <==> cp <= MAX_SCALAR
    ensures r.(plane := e.plane, offsetX := e.offsetX, offsetY := e.offsetY) == e
  {
    var a := AddressOf(cp);
    var cellSize := e.CellSize();
    var r := e.(plane := a.plane,
                offsetX := e.width / 2.0 - (a.col as real + 0.5) * cellSize,
                offsetY := e.height / 2.0 - (a.row as real + 0.5) * cellSize);
    CellCentreHit(r.offsetX, a.col, cellSize, e.width / 2.0);
    CellCentreHit(r.offsetY, a.row, cellSize, e.height / 2.0);
    var hit := Click(r, e.width / 2.0, e.height / 2.0).1;
    assert AddressOf(hit.value) == a;
    r
  }

  /** A point at the centre of cell k is at grid coordinate k + 0.5, so it
      lies in cell k. */
  lemma CellCentreHit(offset: real, k: nat, cellSize: real, x: real)
    requires cellSize > 0.0
    requires x == offset + (k as real + 0.5) * cellSize
    ensures (x - offset) / cellSize == k as real + 0.5
    ensures ((x - offset) / cellSize).Floor == k
  {
    var c := k as real + 0.5;
    assert x - offset == c * cellSize;
    DivCancel(c, cellSize);
  }

  lemma DivCancel(a: real, b: real)
    requires b != 0.0
    ensures (a * b) / b == a
  {
  }

  /** The cell range `render` paints. */
  function VisibleRange(e: Explorer): (r: CellRange)
    ensures r.endCol <= GRID_SIZE && r.endRow <= GRID_SIZE
  {
    var cellSize := e.CellSize();
    CellRange(
      AsU32(Max(((-e.offsetX) / cellSize).Floor, 0)),
      AsU32(Max(((-e.offsetY) / cellSize).Floor, 0)),
      AsU32(Min(Ceil((e.width - e.offsetX) / cellSize), GRID_SIZE)),
      AsU32(Min(Ceil((e.height - e.offsetY) / cellSize), GRID_SIZE)))
  }

  /** Cells [start, start + cellSize) that meet the open interval (0, extent). */
  predicate Overlaps(offset: real, k: int, cellSize: real, extent: real) {
    offset + (k as real + 1.0) * cellSize > 0.0 && offset + k as real * cellSize < extent
  }

  /** One axis of the visible range: with s = max(floor(-o/c), 0) and
      e = min(ceil((n - o)/c), 256), grid index k lies in [s, e) iff its
      cell meets the canvas. */
  lemma AxisVisible(offset: real, extent: real, cellSize: real, k: nat)
    requires cellSize > 0.0 && k < GRID_SIZE
    ensures var start := AsU32(Max(((-offset) / cellSize).Floor, 0));
            var end := AsU32(Min(Ceil((extent - offset) / cellSize), GRID_SIZE));
            start <= k < end <==> Overlaps(offset, k, cellSize, extent)
  {
    var first := ((-offset) / cellSize).Floor;
    var last := Ceil((extent - offset) / cellSize);
    assert AsU32(Max(first, 0)) <= k <==> first <= k;
    assert k < AsU32(Min(last, GRID_SIZE)) <==> k < last;
    StartSide(offset, cellSize, k);
    EndSide(offset, extent, cellSize, k);
  }

  /** k is at or past floor(-o/c) iff cell k ends right of the canvas's left edge. */
  lemma StartSide(offset: real, cellSize: real, k: int)
    requires cellSize > 0.0
    ensures ((-offset) / cellSize).Floor <= k <==> offset + (k as real + 1.0) * cellSize > 0.0
  {
    var lo := (-offset) / cellSize;
    assert lo.Floor <= k <==> lo < k as real + 1.0;
    QuotientBelow(-offset, k as real + 1.0, cellSize);
  }

  /** k is before ceil((n-o)/c) iff cell k starts left of the canvas's right edge n. */
  lemma EndSide(offset: real, extent: real, cellSize: real, k: int)
    requires cellSize > 0.0
    ensures k < Ceil((extent - offset) / cellSize) <==> offset + k as real * cellSize < extent
  {
    var hi := (extent - offset) / cellSize;
    assert k < Ceil(hi) <==> (k as real) < hi;
    QuotientAbove(extent - offset, k as real, cellSize);
  }

  /** v / c < t iff v < t * c, for positive c. */
  lemma QuotientBelow(v: real, t: real, c: real)
    requires c > 0.0
    ensures v / c < t <==> v < t * c
  {
    DivMul(v, c);
    ScaleLess(v / c, t, c);
  }

  /** t < v / c iff t * c < v, for positive c. */
  lemma QuotientAbove(v: real, t: real, c: real)
    requires c > 0.0
    ensures t < v / c <==> t * c < v
  {
    DivMul(v, c);
    ScaleLess(t, v / c, c);
  }

  lemma DivMul(a: real, b: real)
    requires b != 0.0
    ensures (a / b) * b == a
  {
  }

  /** `render` paints exactly the cells of the plane that meet the canvas. */
  lemma VisibleRangeIsOnCanvas(e: Explorer)
    ensures var r := VisibleRange(e);
            && (forall col: nat :: col < GRID_SIZE ==>
                  (r.startCol <= col < r.endCol <==> Overlaps(e.offsetX, col, e.CellSize(), e.width)))
            && (forall row: nat :: row < GRID_SIZE ==>
                  (r.startRow <= row < r.endRow <==> Overlaps(e.offsetY, row, e.CellSize(), e.height)))
  {
    forall k: nat | k < GRID_SIZE
      ensures var r := VisibleRange(e);
              r.startCol <= k < r.endCol <==> Overlaps(e.offsetX, k, e.CellSize(), e.width)
      ensures var r := VisibleRange(e);
              r.startRow <= k < r.endRow <==> Overlaps(e.offsetY, k, e.CellSize(), e.height)
    {
      AxisVisible(e.offsetX, e.width, e.CellSize(), k);
      AxisVisible(e.offsetY, e.height, e.CellSize(), k);
    }
  }

  /** Clicking the centre of a cell selects the codepoint `render` computes
      for that cell. Every painted cell is one of these, since the visible
      range ends at most at row and column 256. */
  lemma PaintedCellIsClicked(e: Explorer, row: nat, col: nat)
    requires row < GRID_SIZE && col < GRID_SIZE
    ensures Click(e, e.offsetX + (col as real + 0.5) * e.CellSize(),
                  e.offsetY + (row as real + 0.5) * e.CellSize()).1
         == Some(CellCodepoint(Address(e.plane, row, col)))
  {
    CellCentreHit(e.offsetX, col, e.CellSize(), e.offsetX + (col as real + 0.5) * e.CellSize());
    CellCentreHit(e.offsetY, row, e.CellSize(), e.offsetY + (row as real + 0.5) * e.CellSize());
  }

  /** After a click that hits, `render` highlights exactly the clicked cell:
      no other cell of the plane carries the selected codepoint. */
  lemma ClickHighlightsOneCell(e: Explorer, x: real, y: real, row: nat, col: nat)
    requires OnGrid(e, x, y) && row < GRID_SIZE && col < GRID_SIZE
    ensures Click(e, x, y).0.selected == Some(CellCodepoint(Address(e.plane, row, col)))
            <==> row == RowAt(e, y) && col == ColumnAt(e, x)
  {
    var cp := Click(e, x, y).1.value;
    var a := Address(e.plane, row, col);
    if cp == CellCodepoint(a) {
      assert AddressOf(cp) == a;
    }
  }

  /** The freshly constructed explorer shows U+0000 in the cell at the
      canvas origin. */
  lemma InitialOriginCell(width: real, height: real, x: real, y: real)
    requires 0.0 <= x < CELL_SIZE && 0.0 <= y < CELL_SIZE
    ensures Click(Init(width, height), x, y).1 == Some(0)
  {
    var e := Init(width, height);
    assert ColumnAt(e, x) == 0 && RowAt(e, y) == 0;
  }

  /** Zooming at a point keeps the same cell under that point. */
  lemma ZoomKeepsCellUnderCursor(e: Explorer, x: real, y: real, delta: real)
    ensures Click(ZoomAt(e, x, y, delta), x, y).1 == Click(e, x, y).1
  {
    var r := ZoomAt(e, x, y, delta);
    assert ColumnAt(r, x) == ColumnAt(e, x);
    assert RowAt(r, y) == RowAt(e, y);
  }

  /** Applies `drag` at each point of a pointer path in turn. */
  function DragAlong(e: Explorer, path: seq<(real, real)>): (r: Explorer)
    decreases |path|
  {
    if path == [] then e else DragAlong(Drag(e, path[0].0, path[0].1), path[1..])
  }

  /** During a drag, a path of pointer moves pans by the displacement from
      the last recorded pointer position to the path's end. */
  lemma {:induction false} DragAlongPans(e: Explorer, path: seq<(real, real)>)
    requires e.dragging && path != []
    ensures var r := DragAlong(e, path);
            && r.offsetX == e.offsetX + (path[|path| - 1].0 - e.lastMouseX)
            && r.offsetY == e.offsetY + (path[|path| - 1].1 - e.lastMouseY)
            && r.lastMouseX == path[|path| - 1].0 && r.lastMouseY == path[|path| - 1].1
            && r.(offsetX := e.offsetX, offsetY := e.offsetY,
                  lastMouseX := e.lastMouseX, lastMouseY := e.lastMouseY) == e
    decreases |path|
  {
    var next := Drag(e, path[0].0, path[0].1);
    if |path| > 1 {
      DragAlongPans(next, path[1..]);
      assert path[1..][|path[1..]| - 1] == path[|path| - 1];
    }
  }

  /** A whole drag gesture, from `start_drag(x0, y0)` through moves ending
      at (xn, yn), pans the grid by exactly (xn - x0, yn - y0). */
  lemma DragGesture(e: Explorer, x0: real, y0: real, path: seq<(real, real)>)
    requires path != []
    ensures var r := DragAlong(StartDrag(e, x0, y0), path);
            && r.offsetX == e.offsetX + (path[|path| - 1].0 - x0)
            && r.offsetY == e.offsetY + (path[|path| - 1].1 - y0)
            && r.zoom == e.zoom && r.plane == e.plane && r.selected == e.selected
  {
    DragAlongPans(StartDrag(e, x0, y0), path);
  }

  /** Once the drag has ended, no pointer path moves anything. */
  lemma {:induction false} DragAlongWhileIdle(e: Explorer, path: seq<(real, real)>)
    requires !e.dragging
    ensures DragAlong(e, path) == e
    decreases |path|
  {
    if path != [] {
      DragAlongWhileIdle(Drag(e, path[0].0, path[0].1), path[1..]);
    }
  }
}

=== FILE: wrappers.dfy ===
/** Rust's `Option`, the only failure type the explorer uses. */
module Wrappers {

  datatype Option<+T> = None | Some(value: T)
}
